=== FILE: README.md ===
# Two-agent debate loop, modelled and verified in Dafny

Three Python scripts run a debate between two language-model agents:

- `two_clients.py`
- `two_clients_ESP32.py`
- `b.py`

Each agent keeps its own message list. The list starts with a system instruction and a
user entry. In every round, agent 1 answers its whole list. Its line is appended to its
own list as `assistant` and to the other agent's list as `user`. Agent 2 then answers its
updated list, and the same two appends happen the other way round.

The two `two_clients` scripts also:

- refine both statements first;
- keep a transcript per agent;
- display a four-field state after every round;
- ask each agent for a summary;
- return the refined statements with the transcripts formatted as numbered points.

The ESP32 variant also sends each display's four texts to four serial ports. `b.py` seeds
the lists with the raw statements, returns both lists, and shows agent 1's list without
its system entry.

The model is split into these modules:

- `chat.dfy` (`Chat`): roles, messages, the generator, the four-field snapshot.
- `transcript.dfy` (`Transcript`): `format_transcript`, with a parser as its partner.
- `dialogue.dfy` (`Dialogue`): the shared reference definition of the loop, and of
  `simulate_dialogue` and `main` in the two transcript-keeping scripts.
- `two_clients.dfy` (`TwoClients`), `two_clients_esp32.dfy` (`TwoClientsEsp32`) and
  `b.dfy` (`B`): each script's own constants, and its loop as an imperative method
  proved equal to the shared definition.

The language model is a function parameter, one per client: `Generator = seq<Message> ->
string`. Calls are not observable effects here, so each method returns a structured
record of its side effects:

- every request sent (the message list and its reply);
- every display made;
- for the ESP32 script, every serial send.

`Dialogue.Rounds` defines the rounds by recursion on the round count. The lists,
transcripts and records are functions of those rounds. The properties are lemmas about
these functions. Each loop method's postcondition ties its results to them.

Python's `range(rounds)` with a negative count runs no iteration. `Dialogue.Iterations`
models this.

Three behaviours of the code worth noting:

- No language-model call is guarded: a failed request is not caught and nothing is
  retried. Only the ESP32 script's serial helpers catch errors.
- `simulate_dialogue` requests the two summaries but returns the refined statements in
  their place. `main` therefore displays the refined statements beside the formatted
  transcripts.
- `main` displays `Iterations(rounds) + 2` times: once before the debate, showing the raw
  and refined statements, once per round, and once at the end.

## Model

| member | source | states |
|---|---|---|
| Transcript.FormatTranscript | two_clients.py:44-50 | the formatted transcript is the empty string exactly when the transcript is empty |
| Transcript.FormatTranscriptLines | two_clients.py:48-49 | split at newlines, a non-empty formatted transcript has exactly one line per entry, in order, when no entry contains a newline |
| Transcript.LabelledLines | two_clients.py:49 | for every transcript, line `i` is `"Point "`, the decimal of `i + 1`, `": "`, then entry `i` |
| Transcript.FormatTranscriptRoundTrip | two_clients_ESP32.py:51-57 | parsing the formatted text (1-based labels, in order) gives back exactly the transcript, when no entry contains a newline |
| Transcript.Decimal | two_clients.py:49 | the label number is written as a non-empty string of decimal digits without a leading zero; zero alone is `"0"` |
| Transcript.DecimalRoundTrip | two_clients.py:49 | reading the written label number back as a decimal gives the number |
| Transcript.SplitJoin | two_clients.py:48 | joining entries with a one-character separator they do not contain loses nothing: splitting at it gives the entries back |
| Dialogue.Appended | two_clients.py:75-81 | the loop appends exactly two entries per round to each list |
| Dialogue.Rounds | two_clients.py:72 | the loop plays exactly the requested number of rounds |
| Dialogue.AppendedAt | two_clients.py:75-81 | round `k` contributes entries `2k` and `2k+1`: agent 1's line, then agent 2's line, each `assistant` in its speaker's own list and `user` in the other list |
| Dialogue.RoundsStep | two_clients.py:73-78 | the next round answers the lists as they stand: agent 1 its list, agent 2 its list followed by agent 1's new line as `user` |
| Dialogue.Advance | two_clients.py:73-81 | one iteration of the loop body turns the state after `rs` into the state after `rs` plus the new round |
| Dialogue.RoundsPrefix | two_clients.py:72-81 | the loop only appends: the first `k` of `n` rounds are the rounds of a `k`-round run |
| Dialogue.RoundAt | two_clients.py:73-78 | round `k`'s lines are the generators' answers to the lists after `k` rounds, agent 2's list extended by agent 1's fresh line |
| Dialogue.Interleaving | two_clients.py:73-81 | in the final lists, agent 1's entry of round `k` answers everything before it, and agent 2's list holds that same text next as `user`; agent 2's entry answers its list up to and including that line, and it is copied back into agent 1's list as `user` |
| Dialogue.LoggedRequests | two_clients.py:73-84 | round `k`'s recorded requests carry agent 1's list before the round and agent 2's list ending in agent 1's fresh reply; the replies are the round's lines, and the display is that round's |
| Dialogue.AssistantView | two_clients.py:74-81 | the `assistant` entries a list gains are, in order, exactly the lines its owner spoke |
| Dialogue.Alternation | two_clients.py:75-81 | after a seed that does not end in `assistant`, no list ever holds two `assistant` entries in a row |
| Dialogue.SimulationLengths | two_clients.py:60-81 | after the loop each transcript starts with its refined statement and has `Iterations(rounds) + 1` entries; each list starts with its seed pair and has `2 + 2 * Iterations(rounds)` entries; there is one round record per round |
| Dialogue.SimulationAppends | two_clients.py:73-81 | round `k`'s line of agent 1 is transcript entry `k+1`, `assistant` entry `2+2k` of its own list and `user` entry `2+2k` of agent 2's list; agent 2's line is likewise at `3+2k` |
| Dialogue.SimulationTurnOrder | two_clients.py:72-84 | in round `k`, agent 1 is asked with its list cut at `2+2k`; agent 2 is asked with its list cut at `3+2k`, which already ends with agent 1's reply as `user`; the replies are the transcript lines; the round's display shows the refined statements with the opponent's newest line |
| Dialogue.SimulationViews | two_clients.py:69-81 | each list's `assistant` contents are its transcript without the seed, and neither list has two `assistant` entries in a row |
| Dialogue.DebateDisplays | two_clients.py:128-144 | `main` displays `Iterations(rounds) + 2` times: the raw and refined statements first, then each round's display, then the refined statements beside the formatted transcripts (not the summaries); its refinement requests equal those inside `simulate_dialogue` |
| TwoClients.RoundDisplays | two_clients.py:83-84 | after round `k`, the display shows agent 1's refined statement beside agent 2's line of that round, and agent 2's refined statement beside agent 1's line |
| TwoClients.SessionDisplays | two_clients.py:133-144 | `main`'s first display shows each raw statement beside its refinement; its last shows each refined statement, not the summary, beside its formatted transcript |
| TwoClients.DebateRounds | two_clients.py:60-84 | the seeded lists, transcripts and per-round records after the loop are those `Dialogue.Simulate` defines for `rounds` rounds |
| TwoClients.SimulateDialogue | two_clients.py:53-113 | the returned tuple and every request and display equal those `Dialogue.Simulate` defines |
| TwoClients.RunDebate | two_clients.py:128-144 | the refinements, the opening display, the dialogue and the closing display equal those `Dialogue.Debate` defines for `main` |
| TwoClientsEsp32.Zip | two_clients_ESP32.py:154 | pairing stops at the shorter list, and pair `i` sends text `i` to port `i` |
| TwoClientsEsp32.DisplayStateToEsp32s | two_clients_ESP32.py:145-155 | the sends are exactly the pairs of the port and data lists, in index order |
| TwoClientsEsp32.DisplayState | two_clients_ESP32.py:129-142 | a display shows the four texts and sends them, in the order front 1, back 1, front 2, back 2, to the ports in order at the given baud rate |
| TwoClientsEsp32.Esp32Routing | two_clients_ESP32.py:140-141 | with the script's four ports at 9600 baud, `/dev/ttyUSB0` to `/dev/ttyUSB3` receive agent 1's front and back text, then agent 2's front and back text |
| TwoClientsEsp32.PortCount | two_clients_ESP32.py:154-155 | a display makes `min(len(ports), 4)` sends, to the ports in order; surplus ports or texts are ignored |
| TwoClientsEsp32.RoundRouting | two_clients_ESP32.py:97 | after round `k`, each agent's front board gets its refined statement and its back board gets the opponent's line of that round |
| TwoClientsEsp32.DebateRounds | two_clients_ESP32.py:67-97 | the seeded lists, transcripts and per-round relays after the loop are those `Dialogue.Simulate` defines for `rounds` rounds |
| TwoClientsEsp32.SimulateDialogue | two_clients_ESP32.py:60-126 | the returned tuple and every request, display and serial send equal those `Dialogue.Simulate` defines |
| TwoClientsEsp32.RunDebate | two_clients_ESP32.py:224-240 | the refinements, the opening relay, the dialogue and the closing relay equal those `Dialogue.Debate` defines for `main` |
| B.SimulateDialogue | b.py:28-59 | the two returned lists are those `B.Conversations` defines for `rounds` rounds, seeded with the raw statements |
| B.ConversationShape | b.py:33-59 | each list starts with the instruction and the raw statement and has `2 + 2 * Iterations(rounds)` entries; with no round the lists are exactly the seeds; no list has two `assistant` entries in a row |
| B.ConversationRound | b.py:48-57 | in round `k`, agent 1's entry answers its list before it and is copied to agent 2's list as `user`; agent 2's entry answers its list, which already ends with that line, and is copied back as `user` |
| B.DisplayConversation | b.py:62-69 | the display keeps exactly the `user` and `assistant` entries and skips `system` ones |
| B.DisplayConversationConcat | b.py:66-69 | the display of a concatenation is the concatenation of the displays, so the original order is kept |
| B.DisplayAppended | b.py:66-69 | every entry the debate appends is displayed |
| B.DisplayedDebate | b.py:78-81 | `main` shows agent 1's list without its system entry: the raw statement, then every line of the debate in order |
| B.RunDebate | b.py:72-81 | what `main` shows is the display of agent 1's list as `B.Conversations` defines it |

## Left out

- The OpenAI client and `gpt_call`'s network request are not modelled: each client is a
  function parameter from message list to text. The model identifier is not modelled.
- A real service may answer the same prompt differently. The model answers the same
  prompt with the same text. This matters only for `main`'s second refinement request,
  which repeats the first one.
- `message.content` can be `None` in the real API. The model's generator always returns
  text.
- Reading credentials with `load_dotenv` and `os.getenv` is environment input.
- The `input()`/`int()` prompts in every `main` are input. The round count is a
  parameter, and a non-numeric count (`ValueError`) is not modelled.
- TwoClients.DisplayState: `display_state` only prints its four arguments and pauses, so a
  display is its `Snapshot` unchanged; what each display shows is stated by
  `TwoClients.RoundDisplays`, `TwoClients.SessionDisplays` and `Dialogue.SimulationTurnOrder`.
- Printing is not modelled: the `Agent 1 Front:` lines of `display_state`, and the
  title-cased `Role: content` lines with blank lines of `display_conversation`. The model
  keeps what is shown and in what order.
- `time.sleep` pacing carries no meaning for the results.
- Serial I/O is not modelled. A `Transmission` records each call of
  `send_string_to_esp32`. Opening the port, encoding, reading replies and the caught
  `SerialException` are not modelled.
- `list_serial_ports`, `list_avaliable_ports` and `create_serial_connection` only probe
  or open hardware. `python_serial.py` is a hardware demo; it is not part of this model.
- The module-level `ports` list of the ESP32 script is a parameter. `Esp32Ports` holds
  the value the script assigns.
- `a.py` makes two calls of one translation helper around a fixed four-entry print list;
  it is not part of this model.
- Transcript.FormatTranscriptRoundTrip: holds only for entries without a newline. An
  entry holding a newline makes the formatted text ambiguous.
- Transcript.FormatTranscriptLines: holds only for entries without a newline. An entry
  holding a newline is split into several lines, so the lines no longer match the entries.

=== FILE: b.dfy ===
/**
 * b.py: the plain debate. Both message lists are seeded with the raw inputs (no
 * refinement, no transcripts, no summaries); `main` shows agent 1's list without its
 * system entry.
 */
module B {
  import opened Chat
  import opened Dialogue

  /** The system instruction both agents get. */
  const Debater := "You are a great debater, limit respond to 15 words."

  /** The two lists `simulate_dialogue` returns, after `Iterations(rounds)` rounds. */
  function Conversations(gen1: Generator, gen2: Generator, input1: string, input2: string, rounds: int)
    : (seq<Message>, seq<Message>)
  {
    var seed1 := Prompt(Debater, input1);
    var seed2 := Prompt(Debater, input2);
    var rs := Rounds(gen1, gen2, seed1, seed2, Iterations(rounds));
    (seed1 + Appended(rs, Agent1), seed2 + Appended(rs, Agent2))
  }

  /** `simulate_dialogue`: seed both lists, then run the rounds, appending in place. */
  method SimulateDialogue(gen1: Generator, gen2: Generator, userInput1: string, userInput2: string, rounds: int)
    returns (messages1: seq<Message>, messages2: seq<Message>)
    ensures (messages1, messages2) == Conversations(gen1, gen2, userInput1, userInput2, rounds)
  {
    messages1 := Prompt(Debater, userInput1);
    messages2 := Prompt(Debater, userInput2);
    ghost var seed1, seed2 := messages1, messages2;

    ghost var rs: seq<Round> := [];
    var i := 0;
    while i < rounds
      invariant 0 <= i <= Iterations(rounds)
      invariant rs == Rounds(gen1, gen2, seed1, seed2, i)
      invariant messages1 == seed1 + Appended(rs, Agent1)
      invariant messages2 == seed2 + Appended(rs, Agent2)
    {
      RoundsStep(gen1, gen2, seed1, seed2, i, messages1, messages2);
      var newTurn1 := gen1(messages1);
      messages1 := messages1 + [Message(Assistant, newTurn1)];
      messages2 := messages2 + [Message(User, newTurn1)];

      var newTurn2 := gen2(messages2);
      messages2 := messages2 + [Message(Assistant, newTurn2)];
      messages1 := messages1 + [Message(User, newTurn2)];

      var r := Round(newTurn1, newTurn2);
      AppendedSnoc(rs, r, Agent1);
      AppendedSnoc(rs, r, Agent2);
      ConcatPair(seed1, Appended(rs, Agent1), Message(Assistant, newTurn1), Message(User, newTurn2));
      ConcatPair(seed2, Appended(rs, Agent2), Message(User, newTurn1), Message(Assistant, newTurn2));
      rs := rs + [r];
      i := i + 1;
    }
    assert rs == Rounds(gen1, gen2, seed1, seed2, Iterations(rounds));
  }

  /**
   * Both lists start with the instruction and the raw input, grow by two entries per
   * round, are exactly the seeds when no round runs, and never hold two `assistant`
   * entries in a row.
   */
  lemma ConversationShape(gen1: Generator, gen2: Generator, input1: string, input2: string, rounds: int)
    ensures
      var c := Conversations(gen1, gen2, input1, input2, rounds);
      && |c.0| == 2 + 2 * Iterations(rounds) && |c.1| == 2 + 2 * Iterations(rounds)
      && c.0[..2] == [Message(System, Debater), Message(User, input1)]
      && c.1[..2] == [Message(System, Debater), Message(User, input2)]
      && (rounds <= 0 ==> c == ([Message(System, Debater), Message(User, input1)], [Message(System, Debater), Message(User, input2)]))
      && NoDoubleAssistant(c.0) && NoDoubleAssistant(c.1)
  {
    var seed1 := Prompt(Debater, input1);
    var seed2 := Prompt(Debater, input2);
    var rs := Rounds(gen1, gen2, seed1, seed2, Iterations(rounds));
    assert (seed1 + Appended(rs, Agent1))[..2] == seed1;
    assert (seed2 + Appended(rs, Agent2))[..2] == seed2;
    if rounds <= 0 {
      assert rs == [];
      assert seed1 + Appended(rs, Agent1) == seed1 && seed2 + Appended(rs, Agent2) == seed2;
    }
    Alternation(seed1, rs, Agent1);
    Alternation(seed2, rs, Agent2);
  }

  /**
   * Round `k`: agent 1 answers its whole list so far and that line lands in its list as
   * `assistant` and in agent 2's as `user`; agent 2 answers its list, which already ends
   * with that line, and its line lands back symmetrically.
   */
  lemma ConversationRound(gen1: Generator, gen2: Generator, input1: string, input2: string, rounds: int, k: nat)
    requires k < Iterations(rounds)
    ensures
      var c := Conversations(gen1, gen2, input1, input2, rounds);
      && c.0[2 + 2 * k] == Message(Assistant, gen1(c.0[..2 + 2 * k]))
      && c.1[2 + 2 * k] == Message(User, c.0[2 + 2 * k].content)
      && c.1[3 + 2 * k] == Message(Assistant, gen2(c.1[..3 + 2 * k]))
      && c.0[3 + 2 * k] == Message(User, c.1[3 + 2 * k].content)
  {
    Interleaving(gen1, gen2, Prompt(Debater, input1), Prompt(Debater, input2), Iterations(rounds), k);
  }

  /** `display_conversation`: the `user` and `assistant` entries, in order; `system` ones are skipped. */
  function DisplayConversation(conversation: seq<Message>): (shown: seq<Message>)
    ensures |shown| <= |conversation|
    ensures forall m :: m in shown <==> m in conversation && m.role != System
  {
    if conversation == [] then []
    else
      assert conversation == [conversation[0]] + conversation[1..];
      (if conversation[0].role == System then [] else [conversation[0]]) + DisplayConversation(conversation[1..])
  }

  /** Filtering a concatenation filters each part: the display keeps the original order. */
  lemma {:induction false} DisplayConversationConcat(a: seq<Message>, b: seq<Message>)
    ensures DisplayConversation(a + b) == DisplayConversation(a) + DisplayConversation(b)
  {
    if a == [] {
      assert a + b == b;
    } else {
      assert (a + b)[1..] == a[1..] + b;
      DisplayConversationConcat(a[1..], b);
    }
  }

  /** Two entries that are not `system` entries are both displayed. */
  lemma DisplayTwo(m1: Message, m2: Message)
    requires m1.role != System && m2.role != System
    ensures DisplayConversation([m1, m2]) == [m1, m2]
  {
    assert [m1, m2][1..] == [m2];
    assert [m2][1..] == [];
  }

  /** The debate part of a list has no `system` entries: the display keeps all of it. */
  lemma {:induction false} DisplayAppended(rs: seq<Round>, owner: Agent)
    ensures DisplayConversation(Appended(rs, owner)) == Appended(rs, owner)
  {
    if rs != [] {
      var before := rs[..|rs| - 1];
      var r := rs[|rs| - 1];
      assert rs == before + [r];
      AppendedSnoc(before, r, owner);
      DisplayAppended(before, owner);
      var m1, m2 := Message(RoleIn(owner, Agent1), r.turn1), Message(RoleIn(owner, Agent2), r.turn2);
      DisplayConversationConcat(Appended(before, owner), [m1, m2]);
      DisplayTwo(m1, m2);
    }
  }

  /**
   * `main` displays agent 1's list: everything but its first (system) entry, that is
   * agent 1's raw input followed by every line of the debate in order.
   */
  lemma DisplayedDebate(gen1: Generator, gen2: Generator, input1: string, input2: string, rounds: int)
    ensures
      var c := Conversations(gen1, gen2, input1, input2, rounds);
      DisplayConversation(c.0) == c.0[1..]
  {
    var seed1 := Prompt(Debater, input1);
    var rs := Rounds(gen1, gen2, seed1, Prompt(Debater, input2), Iterations(rounds));
    var c1 := seed1 + Appended(rs, Agent1);
    assert c1 == [seed1[0]] + ([seed1[1]] + Appended(rs, Agent1));
    DisplayConversationConcat([seed1[0]], [seed1[1]] + Appended(rs, Agent1));
    DisplayConversationConcat([seed1[1]], Appended(rs, Agent1));
    DisplayAppended(rs, Agent1);
  }

  /** `main` after its three prompts: run the debate and display agent 1's list. */
  method RunDebate(gen1: Generator, gen2: Generator, userInput1: string, userInput2: string, rounds: int)
    returns (shown: seq<Message>)
    ensures shown == DisplayConversation(Conversations(gen1, gen2, userInput1, userInput2, rounds).0)
  {
    var conversation1, _ := SimulateDialogue(gen1, gen2, userInput1, userInput2, rounds);
    shown := DisplayConversation(conversation1);
  }
}

=== FILE: chat.dfy ===
/** Chat messages as the language-model client sees them, and what the scripts show. */
module Chat {

  /** The three roles a chat-completion message can carry. */
  datatype Role = System | User | Assistant

  /** One role-tagged entry of a message list. */
  datatype Message = Message(role: Role, content: string)

  /**
   * A client's `gpt_call`: the text the service generates for a message list.
   * It is a parameter of the model, never computed by it.
   */
  type Generator = seq<Message> -> string

  /** One request sent to the service and the text it answered. */
  datatype Request = Request(prompt: seq<Message>, reply: string)

  /** `gpt_call(client, prompt)`, recorded together with its prompt. */
  function Ask(gen: Generator, prompt: seq<Message>): Request
  {
    Request(prompt, gen(prompt))
  }

  /** The four channels `display_state` shows: agent 1 front/back, agent 2 front/back. */
  datatype Snapshot = Snapshot(front1: string, back1: string, front2: string, back2: string)

  /** The contents of the `assistant` entries of a message list, in order. */
  function AssistantContents(ms: seq<Message>): (r: seq<string>)
    ensures |r| <= |ms|
    decreases |ms|
  {
    if ms == [] then []
    else
      AssistantContents(ms[..|ms| - 1])
      + (if ms[|ms| - 1].role == Assistant then [ms[|ms| - 1].content] else [])
  }

  /** No two adjacent entries are both `assistant` entries. */
  predicate NoDoubleAssistant(ms: seq<Message>)
  {
    forall i :: 0 <= i < |ms| - 1 ==> ms[i].role != Assistant || ms[i + 1].role != Assistant
  }
}

=== FILE: dialogue.dfy ===
/**
 * The two-agent turn-taking debate shared by every script: each agent keeps its own
 * message list; in every round agent 1 speaks first, its line is appended to its own
 * list as `assistant` and to the other list as `user`, then agent 2 answers from its
 * updated list and the same appends happen the other way round.
 */
module Dialogue {
  import opened Chat
  import Transcript

  datatype Agent = Agent1 | Agent2

  /** The two lines produced in one round: agent 1's, then agent 2's. */
  datatype Round = Round(turn1: string, turn2: string)

  /** How many times `for _ in range(rounds)` runs: `rounds` times, or never when it is negative. */
  function Iterations(rounds: int): nat
  {
    if rounds < 0 then 0 else rounds
  }

  /** A message list made of one system instruction followed by one user entry. */
  function Prompt(instruction: string, text: string): seq<Message>
  {
    [Message(System, instruction), Message(User, text)]
  }

  /** The role a line spoken by `speaker` takes in the message list of `owner`. */
  function RoleIn(owner: Agent, speaker: Agent): Role
  {
    if owner == speaker then Assistant else User
  }

  /** The line `speaker` produced in round `r`. */
  function Line(r: Round, speaker: Agent): string
  {
    if speaker == Agent1 then r.turn1 else r.turn2
  }

  /**
   * The entries the loop appends to `owner`'s message list over the rounds `rs`:
   * per round, agent 1's line and then agent 2's line, each as `assistant` in its
   * speaker's own list and as `user` in the other list.
   */
  function Appended(rs: seq<Round>, owner: Agent): (ms: seq<Message>)
    ensures |ms| == 2 * |rs|
    decreases |rs|
  {
    if rs == [] then []
    else
      var r := rs[|rs| - 1];
      Appended(rs[..|rs| - 1], owner)
      + [Message(RoleIn(owner, Agent1), r.turn1), Message(RoleIn(owner, Agent2), r.turn2)]
  }

  /** The lines `speaker` produced over the rounds, in order. */
  function Turns(rs: seq<Round>, speaker: Agent): seq<string>
  {
    seq(|rs|, k requires 0 <= k < |rs| => Line(rs[k], speaker))
  }

  /**
   * The first `n` rounds of the loop, starting from the seed lists: agent 1 answers its
   * whole list so far; agent 2 answers its list after agent 1's new line was appended.
   */
  function Rounds(gen1: Generator, gen2: Generator, seed1: seq<Message>, seed2: seq<Message>, n: nat): (rs: seq<Round>)
    ensures |rs| == n
    decreases n
  {
    if n == 0 then []
    else
      var before := Rounds(gen1, gen2, seed1, seed2, n - 1);
      var turn1 := gen1(seed1 + Appended(before, Agent1));
      var turn2 := gen2(seed2 + Appended(before, Agent2) + [Message(User, turn1)]);
      before + [Round(turn1, turn2)]
  }

  /** What the loop records of one round: agent 1's request, agent 2's request, and the display. */
  datatype RoundLog<D> = RoundLog(ask1: Request, ask2: Request, display: D)

  /** The record of the rounds `rs`, each request holding the message list it was sent. */
  function Logs<D>(show: Round -> D, seed1: seq<Message>, seed2: seq<Message>, rs: seq<Round>): seq<RoundLog<D>>
  {
    seq(|rs|, k requires 0 <= k < |rs| =>
      RoundLog(
        Request(seed1 + Appended(rs[..k], Agent1), rs[k].turn1),
        Request(seed2 + Appended(rs[..k], Agent2) + [Message(User, rs[k].turn1)], rs[k].turn2),
        show(rs[k])))
  }

  /** One more round adds one line to each speaker's lines. */
  lemma TurnsSnoc(rs: seq<Round>, r: Round, speaker: Agent)
    ensures Turns(rs + [r], speaker) == Turns(rs, speaker) + [Line(r, speaker)]
  {
  }

  /** One more round adds its two entries at the end of each list. */
  lemma AppendedSnoc(rs: seq<Round>, r: Round, owner: Agent)
    ensures Appended(rs + [r], owner) == Appended(rs, owner) + [Message(RoleIn(owner, Agent1), r.turn1), Message(RoleIn(owner, Agent2), r.turn2)]
  {
    assert (rs + [r])[..|rs|] == rs;
  }

  /** One more round adds its record at the end. */
  lemma LogsSnoc<D>(show: Round -> D, seed1: seq<Message>, seed2: seq<Message>, rs: seq<Round>, r: Round)
    ensures Logs(show, seed1, seed2, rs + [r]) == Logs(show, seed1, seed2, rs) + [
      RoundLog(
        Request(seed1 + Appended(rs, Agent1), r.turn1),
        Request(seed2 + Appended(rs, Agent2) + [Message(User, r.turn1)], r.turn2),
        show(r))]
  {
    assert (rs + [r])[..|rs|] == rs;
    forall k | 0 <= k < |rs| ensures (rs + [r])[..k] == rs[..k] { }
  }

  /**
   * Round `i + 1` is played on the lists as they stand after `i` rounds: agent 1 answers
   * its list, agent 2 answers its list with agent 1's line appended.
   */
  lemma RoundsStep(gen1: Generator, gen2: Generator, seed1: seq<Message>, seed2: seq<Message>, i: nat,
                   messages1: seq<Message>, messages2: seq<Message>)
    requires messages1 == seed1 + Appended(Rounds(gen1, gen2, seed1, seed2, i), Agent1)
    requires messages2 == seed2 + Appended(Rounds(gen1, gen2, seed1, seed2, i), Agent2)
    ensures Rounds(gen1, gen2, seed1, seed2, i + 1)
         == Rounds(gen1, gen2, seed1, seed2, i) + [Round(gen1(messages1), gen2(messages2 + [Message(User, gen1(messages1))]))]
  {
  }

  /**
   * The state of a debate loop once rounds `rs` are played: both message lists are their
   * seeds plus those rounds, both transcripts their first lines plus each agent's turns,
   * and the record holds one entry per round.
   */
  ghost predicate Progress<D>(show: Round -> D, seed1: seq<Message>, seed2: seq<Message>, first1: string, first2: string,
                              rs: seq<Round>, messages1: seq<Message>, messages2: seq<Message>,
                              transcript1: seq<string>, transcript2: seq<string>, roundLogs: seq<RoundLog<D>>)
  {
    && messages1 == seed1 + Appended(rs, Agent1)
    && messages2 == seed2 + Appended(rs, Agent2)
    && transcript1 == [first1] + Turns(rs, Agent1)
    && transcript2 == [first2] + Turns(rs, Agent2)
    && roundLogs == Logs(show, seed1, seed2, rs)
  }

  /**
   * One loop iteration: agent 1's line goes to its own list as `assistant` and to agent
   * 2's as `user`, then agent 2's line goes back symmetrically, each transcript gains its
   * agent's line, and the round is recorded with the two lists as they were asked.
   */
  lemma Advance<D>(show: Round -> D, seed1: seq<Message>, seed2: seq<Message>, first1: string, first2: string,
                   rs: seq<Round>, messages1: seq<Message>, messages2: seq<Message>,
                   transcript1: seq<string>, transcript2: seq<string>, roundLogs: seq<RoundLog<D>>,
                   turn1: string, turn2: string)
    requires Progress(show, seed1, seed2, first1, first2, rs, messages1, messages2, transcript1, transcript2, roundLogs)
    ensures Progress(show, seed1, seed2, first1, first2, rs + [Round(turn1, turn2)],
                     messages1 + [Message(Assistant, turn1)] + [Message(User, turn2)],
                     messages2 + [Message(User, turn1)] + [Message(Assistant, turn2)],
                     transcript1 + [turn1], transcript2 + [turn2],
                     roundLogs + [RoundLog(Request(messages1, turn1), Request(messages2 + [Message(User, turn1)], turn2),
                                           show(Round(turn1, turn2)))])
  {
    var r := Round(turn1, turn2);
    AppendedSnoc(rs, r, Agent1);
    AppendedSnoc(rs, r, Agent2);
    ConcatPair(seed1, Appended(rs, Agent1), Message(Assistant, turn1), Message(User, turn2));
    ConcatPair(seed2, Appended(rs, Agent2), Message(User, turn1), Message(Assistant, turn2));
    TurnsSnoc(rs, r, Agent1);
    TurnsSnoc(rs, r, Agent2);
    LogsSnoc(show, seed1, seed2, rs, r);
  }

  /** Appending is per round: the entries for `a + b` are those for `a` followed by those for `b`. */
  lemma {:induction false} AppendedConcat(a: seq<Round>, b: seq<Round>, owner: Agent)
    ensures Appended(a + b, owner) == Appended(a, owner) + Appended(b, owner)
    decreases |b|
  {
    if b == [] {
      assert a + b == a;
    } else {
      var b' := b[..|b| - 1];
      AppendedConcat(a, b', owner);
      assert (a + b)[..|a + b| - 1] == a + b';
      assert (a + b)[|a + b| - 1] == b[|b| - 1];
    }
  }

  /**
   * Strict alternation: round `k` contributes entries `2 * k` and `2 * k + 1`, agent 1's
   * line then agent 2's, each `assistant` in its speaker's own list and `user` in the other.
   */
  lemma AppendedAt(rs: seq<Round>, owner: Agent, k: nat)
    requires k < |rs|
    ensures Appended(rs, owner)[2 * k] == Message(RoleIn(owner, Agent1), rs[k].turn1)
    ensures Appended(rs, owner)[2 * k + 1] == Message(RoleIn(owner, Agent2), rs[k].turn2)
  {
    AppendedConcat(rs[..k], rs[k..], owner);
    assert rs[..k] + rs[k..] == rs;
    AppendedConcat([rs[k]], rs[k + 1..], owner);
    assert [rs[k]] + rs[k + 1..] == rs[k..];
    assert Appended([rs[k]], owner) == [Message(RoleIn(owner, Agent1), rs[k].turn1), Message(RoleIn(owner, Agent2), rs[k].turn2)];
  }

  /** Round `k`'s two entries sit right after a two-entry seed and the `2 * k` entries of earlier rounds. */
  lemma EntriesAt(seed: seq<Message>, rs: seq<Round>, owner: Agent, k: nat)
    requires |seed| == 2 && k < |rs|
    ensures (seed + Appended(rs, owner))[2 + 2 * k] == Message(RoleIn(owner, Agent1), rs[k].turn1)
    ensures (seed + Appended(rs, owner))[3 + 2 * k] == Message(RoleIn(owner, Agent2), rs[k].turn2)
  {
    AppendedAt(rs, owner, k);
  }

  /** The entries appended over the first `k` rounds are the first `2 * k` entries appended overall. */
  lemma AppendedPrefix(rs: seq<Round>, k: nat, owner: Agent)
    requires k <= |rs|
    ensures Appended(rs[..k], owner) == Appended(rs, owner)[..2 * k]
  {
    AppendedConcat(rs[..k], rs[k..], owner);
    assert rs[..k] + rs[k..] == rs;
  }

  /** The rounds are append-only: the first `k` of `n` rounds are exactly the rounds of a `k`-round run. */
  lemma {:induction false} RoundsPrefix(gen1: Generator, gen2: Generator, seed1: seq<Message>, seed2: seq<Message>, n: nat, k: nat)
    requires k <= n
    ensures Rounds(gen1, gen2, seed1, seed2, n)[..k] == Rounds(gen1, gen2, seed1, seed2, k)
    decreases n
  {
    var rs := Rounds(gen1, gen2, seed1, seed2, n);
    if k < n {
      RoundsPrefix(gen1, gen2, seed1, seed2, n - 1, k);
      var before := Rounds(gen1, gen2, seed1, seed2, n - 1);
      assert rs[..k] == before[..k];
    } else {
      assert rs[..k] == rs;
    }
  }

  /** Round `k` of a run: agent 1 answers its list after `k` rounds, agent 2 that list's counterpart plus agent 1's fresh line. */
  lemma RoundAt(gen1: Generator, gen2: Generator, seed1: seq<Message>, seed2: seq<Message>, n: nat, k: nat)
    requires k < n
    ensures
      var rs := Rounds(gen1, gen2, seed1, seed2, n);
      && rs[k].turn1 == gen1(seed1 + Appended(rs[..k], Agent1))
      && rs[k].turn2 == gen2(seed2 + Appended(rs[..k], Agent2) + [Message(User, rs[k].turn1)])
  {
    var rs := Rounds(gen1, gen2, seed1, seed2, n);
    RoundsPrefix(gen1, gen2, seed1, seed2, n, k);
    RoundsPrefix(gen1, gen2, seed1, seed2, n, k + 1);
    var next := Rounds(gen1, gen2, seed1, seed2, k + 1);
    assert next == rs[..k] + [next[k]];
    assert rs[k] == next[k];
  }

  /**
   * Turn order. In round `k` of the final lists: agent 1's entry is the generator's
   * answer to everything before it; that same text is the next entry of agent 2's list,
   * as `user`; agent 2's entry is its generator's answer to its list up to and including
   * agent 1's fresh line; and that text is copied into agent 1's list as `user`.
   */
  lemma Interleaving(gen1: Generator, gen2: Generator, seed1: seq<Message>, seed2: seq<Message>, n: nat, k: nat)
    requires k < n
    ensures
      var rs := Rounds(gen1, gen2, seed1, seed2, n);
      var c1 := seed1 + Appended(rs, Agent1);
      var c2 := seed2 + Appended(rs, Agent2);
      && c1[|seed1| + 2 * k] == Message(Assistant, gen1(c1[..|seed1| + 2 * k]))
      && c2[|seed2| + 2 * k] == Message(User, c1[|seed1| + 2 * k].content)
      && c2[|seed2| + 2 * k + 1] == Message(Assistant, gen2(c2[..|seed2| + 2 * k + 1]))
      && c1[|seed1| + 2 * k + 1] == Message(User, c2[|seed2| + 2 * k + 1].content)
  {
    var rs := Rounds(gen1, gen2, seed1, seed2, n);
    RoundAt(gen1, gen2, seed1, seed2, n, k);
    Prompt1(seed1, rs, k);
    Prompt2(seed2, rs, k);
    AppendedAt(rs, Agent1, k);
    AppendedAt(rs, Agent2, k);
  }

  lemma PrefixOf<T>(seed: seq<T>, a: seq<T>, j: nat, x: seq<T>)
    requires j <= |a| && a[..j] == x
    ensures (seed + a)[..|seed| + j] == seed + x
  {
  }

  lemma PrefixThenOne<T>(seed: seq<T>, a: seq<T>, j: nat, x: seq<T>, m: T)
    requires j < |a| && a[..j] == x && a[j] == m
    ensures (seed + a)[..|seed| + j + 1] == seed + x + [m]
  {
    assert (seed + a)[..|seed| + j + 1] == seed + a[..j + 1];
    assert a[..j + 1] == x + [m];
  }

  /** The list agent 1 is asked with in round `k` is its final list cut before that round's entries. */
  lemma Prompt1(seed1: seq<Message>, rs: seq<Round>, k: nat)
    requires k < |rs|
    ensures (seed1 + Appended(rs, Agent1))[..|seed1| + 2 * k] == seed1 + Appended(rs[..k], Agent1)
  {
    AppendedPrefix(rs, k, Agent1);
    PrefixOf(seed1, Appended(rs, Agent1), 2 * k, Appended(rs[..k], Agent1));
  }

  /** The list agent 2 is asked with in round `k` is its final list cut just after agent 1's line of that round. */
  lemma Prompt2(seed2: seq<Message>, rs: seq<Round>, k: nat)
    requires k < |rs|
    ensures (seed2 + Appended(rs, Agent2))[..|seed2| + 2 * k + 1] == seed2 + Appended(rs[..k], Agent2) + [Message(User, rs[k].turn1)]
  {
    AppendedPrefix(rs, k, Agent2);
    AppendedAt(rs, Agent2, k);
    PrefixThenOne(seed2, Appended(rs, Agent2), 2 * k, Appended(rs[..k], Agent2), Message(User, rs[k].turn1));
  }

  /**
   * The requests recorded for round `k` carry exactly the message lists described by
   * `Interleaving`, and their replies are the generators' answers to them.
   */
  lemma LoggedRequests<D>(gen1: Generator, gen2: Generator, show: Round -> D, seed1: seq<Message>, seed2: seq<Message>, n: nat, k: nat)
    requires k < n
    ensures
      var rs := Rounds(gen1, gen2, seed1, seed2, n);
      var log := Logs(show, seed1, seed2, rs)[k];
      && log.ask1 == Ask(gen1, (seed1 + Appended(rs, Agent1))[..|seed1| + 2 * k])
      && log.ask2 == Ask(gen2, (seed2 + Appended(rs, Agent2))[..|seed2| + 2 * k + 1])
      && log.ask2.prompt[|log.ask2.prompt| - 1] == Message(User, log.ask1.reply)
      && log.ask1.reply == rs[k].turn1 && log.ask2.reply == rs[k].turn2
      && log.display == show(rs[k])
  {
    var rs := Rounds(gen1, gen2, seed1, seed2, n);
    RoundAt(gen1, gen2, seed1, seed2, n, k);
    Prompt1(seed1, rs, k);
    Prompt2(seed2, rs, k);
  }

  lemma ConcatPair<T>(s: seq<T>, a: seq<T>, m1: T, m2: T)
    ensures s + (a + [m1, m2]) == s + a + [m1] + [m2]
  {
  }

  lemma AssistantSnoc(x: seq<Message>, m: Message)
    ensures AssistantContents(x + [m]) == AssistantContents(x) + (if m.role == Assistant then [m.content] else [])
  {
    assert (x + [m])[..|x|] == x;
  }

  /** The two entries of one round add exactly the owner's own line to its `assistant` entries. */
  lemma AssistantRound(x: seq<Message>, r: Round, owner: Agent)
    ensures AssistantContents(x + [Message(RoleIn(owner, Agent1), r.turn1)] + [Message(RoleIn(owner, Agent2), r.turn2)])
         == AssistantContents(x) + [Line(r, owner)]
  {
    var m1 := Message(RoleIn(owner, Agent1), r.turn1);
    var m2 := Message(RoleIn(owner, Agent2), r.turn2);
    AssistantSnoc(x, m1);
    AssistantSnoc(x + [m1], m2);
  }

  /** Restricted to its `assistant` entries, an agent's list is its own lines, in order. */
  lemma {:induction false} AssistantView(seed: seq<Message>, rs: seq<Round>, owner: Agent)
    ensures AssistantContents(seed + Appended(rs, owner)) == AssistantContents(seed) + Turns(rs, owner)
    decreases |rs|
  {
    if rs == [] {
      assert seed + Appended(rs, owner) == seed;
    } else {
      var before, r := rs[..|rs| - 1], rs[|rs| - 1];
      var m1 := Message(RoleIn(owner, Agent1), r.turn1);
      var m2 := Message(RoleIn(owner, Agent2), r.turn2);
      assert before + [r] == rs;
      AppendedSnoc(before, r, owner);
      ConcatPair(seed, Appended(before, owner), m1, m2);
      TurnsSnoc(before, r, owner);
      calc {
        AssistantContents(seed + Appended(rs, owner));
        AssistantContents(seed + Appended(before, owner) + [m1] + [m2]);
        { AssistantRound(seed + Appended(before, owner), r, owner); }
        AssistantContents(seed + Appended(before, owner)) + [Line(r, owner)];
        { AssistantView(seed, before, owner); }
        AssistantContents(seed) + Turns(before, owner) + [Line(r, owner)];
        AssistantContents(seed) + Turns(rs, owner);
      }
    }
  }

  /**
   * After a seed that does not end in `assistant`, an agent's list never holds two
   * `assistant` entries in a row.
   */
  lemma Alternation(seed: seq<Message>, rs: seq<Round>, owner: Agent)
    requires NoDoubleAssistant(seed)
    requires seed != [] && seed[|seed| - 1].role != Assistant
    ensures NoDoubleAssistant(seed + Appended(rs, owner))
  {
    var a := Appended(rs, owner);
    var c := seed + a;
    forall i | 0 <= i < |c| - 1
      ensures c[i].role != Assistant || c[i + 1].role != Assistant
    {
      if i + 1 < |seed| {
        assert c[i] == seed[i] && c[i + 1] == seed[i + 1];
      } else if i + 1 == |seed| {
        assert c[i] == seed[|seed| - 1];
      } else {
        var j := i - |seed|;
        var m := j / 2;
        assert c[i] == a[j] && c[i + 1] == a[j + 1];
        AppendedAt(rs, owner, m);
        if j != 2 * m {
          AppendedAt(rs, owner, m + 1);
        }
      }
    }
  }

  // ----- simulate_dialogue and main of the two transcript-keeping scripts -----

  /** The fixed instruction texts a script sends. */
  datatype Script = Script(refine: string, debater1: string, debater2: string, summarize1: string, summarize2: string)

  /** Every request `simulate_dialogue` sends and every display it makes, in order. */
  datatype DialogueLog<D> = DialogueLog(
    refine1: Request, refine2: Request,
    rounds: seq<RoundLog<D>>,
    conclude1: Request, conclude2: Request)

  /** The state `simulate_dialogue` ends in, what it records, and the tuple it returns. */
  datatype Simulation<D> = Simulation(
    messages1: seq<Message>, messages2: seq<Message>,
    transcript1: seq<string>, transcript2: seq<string>,
    log: DialogueLog<D>,
    returned: (string, string, string, string))

  /** Each round's `display_state(refined_input1, new_turn_2, refined_input2, new_turn_1)`. */
  function RoundDisplay<D>(display: Snapshot -> D, refined1: string, refined2: string): Round -> D
  {
    (r: Round) => display(Snapshot(refined1, r.turn2, refined2, r.turn1))
  }

  /** The summary request: the instruction, then the transcript joined with single spaces. */
  function SummaryPrompt(instruction: string, transcript: seq<string>): seq<Message>
  {
    Prompt(instruction, Transcript.Join(" ", transcript))
  }

  /** `simulate_dialogue(client1, client2, user_input1, user_input2, rounds)`. */
  function Simulate<D>(script: Script, display: Snapshot -> D, gen1: Generator, gen2: Generator,
                       input1: string, input2: string, rounds: int): Simulation<D>
  {
    var refine1 := Ask(gen1, Prompt(script.refine, input1));
    var refine2 := Ask(gen2, Prompt(script.refine, input2));
    var seed1 := Prompt(script.debater1, refine1.reply);
    var seed2 := Prompt(script.debater2, refine2.reply);
    var rs := Rounds(gen1, gen2, seed1, seed2, Iterations(rounds));
    var transcript1 := [refine1.reply] + Turns(rs, Agent1);
    var transcript2 := [refine2.reply] + Turns(rs, Agent2);
    var conclude1 := Ask(gen1, SummaryPrompt(script.summarize1, transcript1));
    var conclude2 := Ask(gen2, SummaryPrompt(script.summarize2, transcript2));
    Simulation(
      seed1 + Appended(rs, Agent1), seed2 + Appended(rs, Agent2),
      transcript1, transcript2,
      DialogueLog(refine1, refine2, Logs(RoundDisplay(display, refine1.reply, refine2.reply), seed1, seed2, rs),
                  conclude1, conclude2),
      (refine1.reply, Transcript.FormatTranscript(transcript1), refine2.reply, Transcript.FormatTranscript(transcript2)))
  }

  /**
   * Sizes after the loop: each transcript is its refined seed plus one line per round,
   * each message list its two seed entries plus two per round, one display per round.
   */
  lemma SimulationLengths<D>(script: Script, display: Snapshot -> D, gen1: Generator, gen2: Generator,
                             input1: string, input2: string, rounds: int)
    ensures
      var s := Simulate(script, display, gen1, gen2, input1, input2, rounds);
      var n := Iterations(rounds);
      && |s.transcript1| == n + 1 && s.transcript1[0] == s.log.refine1.reply
      && |s.transcript2| == n + 1 && s.transcript2[0] == s.log.refine2.reply
      && |s.messages1| == 2 + 2 * n && s.messages1[..2] == Prompt(script.debater1, s.log.refine1.reply)
      && |s.messages2| == 2 + 2 * n && s.messages2[..2] == Prompt(script.debater2, s.log.refine2.reply)
      && |s.log.rounds| == n
  {
  }

  /**
   * The state `simulate_dialogue` ends in, spelled out over the rounds it plays: each list
   * is its seed plus the rounds' entries, each transcript its refined seed plus its
   * speaker's lines, and the round records are the rounds' logs.
   */
  lemma SimulationState<D>(script: Script, display: Snapshot -> D, gen1: Generator, gen2: Generator,
                           input1: string, input2: string, rounds: int)
    ensures
      var s := Simulate(script, display, gen1, gen2, input1, input2, rounds);
      var seed1 := Prompt(script.debater1, s.log.refine1.reply);
      var seed2 := Prompt(script.debater2, s.log.refine2.reply);
      var rs := Rounds(gen1, gen2, seed1, seed2, Iterations(rounds));
      && s.messages1 == seed1 + Appended(rs, Agent1)
      && s.messages2 == seed2 + Appended(rs, Agent2)
      && s.transcript1 == [s.log.refine1.reply] + Turns(rs, Agent1)
      && s.transcript2 == [s.log.refine2.reply] + Turns(rs, Agent2)
      && s.log.rounds == Logs(RoundDisplay(display, s.log.refine1.reply, s.log.refine2.reply), seed1, seed2, rs)
  {
  }

  /**
   * Each round `k` appends agent 1's line to its transcript, to its own list as
   * `assistant` and to agent 2's list as `user`; and agent 2's line symmetrically.
   */
  lemma SimulationAppends<D>(script: Script, display: Snapshot -> D, gen1: Generator, gen2: Generator,
                             input1: string, input2: string, rounds: int, k: nat)
    requires k < Iterations(rounds)
    ensures
      var s := Simulate(script, display, gen1, gen2, input1, input2, rounds);
      && s.messages1[2 + 2 * k] == Message(Assistant, s.transcript1[k + 1])
      && s.messages2[2 + 2 * k] == Message(User, s.transcript1[k + 1])
      && s.messages2[3 + 2 * k] == Message(Assistant, s.transcript2[k + 1])
      && s.messages1[3 + 2 * k] == Message(User, s.transcript2[k + 1])
  {
    var s := Simulate(script, display, gen1, gen2, input1, input2, rounds);
    var rs := Rounds(gen1, gen2, Prompt(script.debater1, s.log.refine1.reply), Prompt(script.debater2, s.log.refine2.reply), Iterations(rounds));
    assert s.messages1 == Prompt(script.debater1, s.log.refine1.reply) + Appended(rs, Agent1);
    assert s.messages2 == Prompt(script.debater2, s.log.refine2.reply) + Appended(rs, Agent2);
    assert s.transcript1[k + 1] == rs[k].turn1 && s.transcript2[k + 1] == rs[k].turn2;
    EntriesAt(Prompt(script.debater1, s.log.refine1.reply), rs, Agent1, k);
    EntriesAt(Prompt(script.debater2, s.log.refine2.reply), rs, Agent2, k);
  }

  /**
   * Turn order as recorded: in round `k`, agent 1 is asked with its list up to that
   * round; agent 2 is asked with its list already ending in agent 1's fresh line; the
   * answers are the lines the transcripts hold; and the display shows the refined
   * seeds with the other agent's newest line.
   */
  lemma SimulationTurnOrder<D>(script: Script, display: Snapshot -> D, gen1: Generator, gen2: Generator,
                               input1: string, input2: string, rounds: int, k: nat)
    requires k < Iterations(rounds)
    ensures
      var s := Simulate(script, display, gen1, gen2, input1, input2, rounds);
      var log := s.log.rounds[k];
      && log.ask1 == Ask(gen1, s.messages1[..2 + 2 * k]) && log.ask1.reply == s.transcript1[k + 1]
      && log.ask2 == Ask(gen2, s.messages2[..3 + 2 * k]) && log.ask2.reply == s.transcript2[k + 1]
      && s.messages2[2 + 2 * k] == Message(User, log.ask1.reply)
      && log.display == display(Snapshot(s.log.refine1.reply, log.ask2.reply, s.log.refine2.reply, log.ask1.reply))
  {
    var refined1 := gen1(Prompt(script.refine, input1));
    var refined2 := gen2(Prompt(script.refine, input2));
    var seed1, seed2 := Prompt(script.debater1, refined1), Prompt(script.debater2, refined2);
    var rs := Rounds(gen1, gen2, seed1, seed2, Iterations(rounds));
    var show := RoundDisplay(display, refined1, refined2);
    var s := Simulate(script, display, gen1, gen2, input1, input2, rounds);
    assert s.messages1 == seed1 + Appended(rs, Agent1) && s.messages2 == seed2 + Appended(rs, Agent2);
    assert s.log.rounds == Logs(show, seed1, seed2, rs);
    assert s.transcript1[k + 1] == Turns(rs, Agent1)[k] && s.transcript2[k + 1] == Turns(rs, Agent2)[k];
    LoggedRequests(gen1, gen2, show, seed1, seed2, Iterations(rounds), k);
    EntriesAt(seed2, rs, Agent2, k);
  }

  /**
   * The two views of a run agree: an agent's `assistant` entries are its transcript
   * without the seed, and neither list ever has two `assistant` entries in a row.
   */
  lemma SimulationViews<D>(script: Script, display: Snapshot -> D, gen1: Generator, gen2: Generator,
                           input1: string, input2: string, rounds: int)
    ensures
      var s := Simulate(script, display, gen1, gen2, input1, input2, rounds);
      && AssistantContents(s.messages1) == s.transcript1[1..]
      && AssistantContents(s.messages2) == s.transcript2[1..]
      && NoDoubleAssistant(s.messages1) && NoDoubleAssistant(s.messages2)
  {
    var s := Simulate(script, display, gen1, gen2, input1, input2, rounds);
    var seed1 := s.messages1[..2];
    var seed2 := s.messages2[..2];
    var rs := Rounds(gen1, gen2, Prompt(script.debater1, s.log.refine1.reply), Prompt(script.debater2, s.log.refine2.reply), Iterations(rounds));
    assert s.messages1 == seed1 + Appended(rs, Agent1);
    assert s.messages2 == seed2 + Appended(rs, Agent2);
    AssistantView(seed1, rs, Agent1);
    AssistantView(seed2, rs, Agent2);
    assert AssistantContents(seed1) == [] by {
      assert seed1[..1][..0] == [];
    }
    assert AssistantContents(seed2) == [] by {
      assert seed2[..1][..0] == [];
    }
    Alternation(seed1, rs, Agent1);
    Alternation(seed2, rs, Agent2);
  }

  /** What `main` does around `simulate_dialogue`: its own refinement requests and the first and last displays. */
  datatype Session<D> = Session(refine1: Request, refine2: Request, opening: D, dialogue: DialogueLog<D>, closing: D)

  /**
   * `main` after reading its inputs: refine both inputs, display them, run
   * `simulate_dialogue` (which refines them again), display what it returned.
   */
  function Debate<D>(script: Script, display: Snapshot -> D, gen1: Generator, gen2: Generator,
                     input1: string, input2: string, rounds: int): Session<D>
  {
    var refine1 := Ask(gen1, Prompt(script.refine, input1));
    var refine2 := Ask(gen2, Prompt(script.refine, input2));
    var s := Simulate(script, display, gen1, gen2, input1, input2, rounds);
    Session(refine1, refine2,
      display(Snapshot(input1, refine1.reply, input2, refine2.reply)),
      s.log,
      display(Snapshot(s.returned.0, s.returned.1, s.returned.2, s.returned.3)))
  }

  /** Every display of a session, in order. */
  function Displays<D>(session: Session<D>): seq<D>
  {
    [session.opening]
    + seq(|session.dialogue.rounds|, k requires 0 <= k < |session.dialogue.rounds| => session.dialogue.rounds[k].display)
    + [session.closing]
  }

  /**
   * `main` displays `rounds + 2` times (`2` for a non-positive count): the raw and
   * refined inputs first, one display per round, and last the refined seeds beside the
   * formatted transcripts, not the summaries. Each refinement request is sent twice.
   */
  lemma DebateDisplays<D>(script: Script, display: Snapshot -> D, gen1: Generator, gen2: Generator,
                          input1: string, input2: string, rounds: int)
    ensures
      var session := Debate(script, display, gen1, gen2, input1, input2, rounds);
      var s := Simulate(script, display, gen1, gen2, input1, input2, rounds);
      var shown := Displays(session);
      && |shown| == Iterations(rounds) + 2
      && shown[0] == display(Snapshot(input1, session.refine1.reply, input2, session.refine2.reply))
      && (forall k :: 0 <= k < Iterations(rounds) ==> shown[k + 1] == s.log.rounds[k].display)
      && shown[|shown| - 1] == display(Snapshot(s.log.refine1.reply, Transcript.FormatTranscript(s.transcript1),
                                                s.log.refine2.reply, Transcript.FormatTranscript(s.transcript2)))
      && session.refine1.prompt == session.dialogue.refine1.prompt
      && session.refine2.prompt == session.dialogue.refine2.prompt
  {
    SimulationLengths(script, display, gen1, gen2, input1, input2, rounds);
  }
}

=== FILE: transcript.dfy ===
/**
 * `format_transcript` and the Python string operations it is built from
 * (`str(n)`, `str.join`), with the inverse that reads a formatted transcript back.
 */
module Transcript {

  datatype Option<T> = None | Some(value: T)

  function DigitChar(d: nat): char
    requires d < 10
  {
    ('0' as int + d) as char
  }

  function DigitValue(c: char): int
  {
    c as int - '0' as int
  }

  /** `str(n)`: the decimal digits of `n`, most significant first, without leading zeros. */
  function Decimal(n: nat): (s: string)
    ensures |s| > 0
    ensures forall i :: 0 <= i < |s| ==> '0' <= s[i] <= '9'
    ensures n > 0 ==> s[0] != '0'
    ensures n == 0 ==> s == "0"
    decreases n
  {
    if n < 10 then [DigitChar(n)] else Decimal(n / 10) + [DigitChar(n % 10)]
  }

  /** `int(s)` for a string of decimal digits. */
  function DecimalValue(s: string): int
    decreases |s|
  {
    if s == [] then 0 else 10 * DecimalValue(s[..|s| - 1]) + DigitValue(s[|s| - 1])
  }

  /** Reading the digits of `str(n)` back gives `n`. */
  lemma {:induction false} DecimalRoundTrip(n: nat)
    ensures DecimalValue(Decimal(n)) == n
    decreases n
  {
    if n >= 10 {
      DecimalRoundTrip(n / 10);
      var s := Decimal(n / 10) + [DigitChar(n % 10)];
      assert s[..|s| - 1] == Decimal(n / 10);
    }
  }

  /** `sep.join(parts)`. */
  function Join(sep: string, parts: seq<string>): (r: string)
    ensures parts != [] ==> parts[0] <= r
    decreases |parts|
  {
    if parts == [] then ""
    else if |parts| == 1 then parts[0]
    else parts[0] + sep + Join(sep, parts[1..])
  }

  /** `s.split(sep)` for a one-character separator. */
  function Split(s: string, sep: char): (r: seq<string>)
    ensures r != []
    decreases |s|
  {
    if s == [] then [""]
    else if s[0] == sep then [""] + Split(s[1..], sep)
    else
      var rest := Split(s[1..], sep);
      [[s[0]] + rest[0]] + rest[1..]
  }

  lemma {:induction false} SplitPlain(x: string, sep: char)
    requires sep !in x
    ensures Split(x, sep) == [x]
    decreases |x|
  {
    if x != [] {
      SplitPlain(x[1..], sep);
      assert [x[0]] + x[1..] == x;
    }
  }

  lemma {:induction false} SplitAfter(x: string, rest: string, sep: char)
    requires sep !in x
    ensures Split(x + [sep] + rest, sep) == [x] + Split(rest, sep)
    decreases |x|
  {
    if x == [] {
      assert x + [sep] + rest == [sep] + rest;
      assert ([sep] + rest)[1..] == rest;
    } else {
      SplitAfter(x[1..], rest, sep);
      assert (x + [sep] + rest)[1..] == x[1..] + [sep] + rest;
      assert [x[0]] + x[1..] == x;
    }
  }

  /** Splitting a join at its separator recovers the parts, when no part holds the separator. */
  lemma {:induction false} SplitJoin(parts: seq<string>, sep: char)
    requires parts != []
    requires forall i :: 0 <= i < |parts| ==> sep !in parts[i]
    ensures Split(Join([sep], parts), sep) == parts
    decreases |parts|
  {
    if |parts| == 1 {
      SplitPlain(parts[0], sep);
    } else {
      SplitJoin(parts[1..], sep);
      SplitAfter(parts[0], Join([sep], parts[1..]), sep);
      assert parts == [parts[0]] + parts[1..];
    }
  }

  /** The label of the entry at 0-based position `index`: `f"Point {index + 1}: "`. */
  function Label(index: nat): string
  {
    "Point " + Decimal(index + 1) + ": "
  }

  /** The labelled lines of a transcript, one per entry, in order. */
  function Lines(transcript: seq<string>): seq<string>
  {
    seq(|transcript|, i requires 0 <= i < |transcript| => Label(i) + transcript[i])
  }

  /** `format_transcript`: the labelled lines joined with newlines. */
  function FormatTranscript(transcript: seq<string>): (r: string)
    ensures r == "" <==> transcript == []
  {
    Join("\n", Lines(transcript))
  }

  /** Removes `prefix` from the front of `s`, if `s` starts with it. */
  function StripPrefix(prefix: string, s: string): (r: Option<string>)
    ensures r.Some? <==> prefix <= s
    ensures r.Some? ==> s == prefix + r.value
  {
    if prefix <= s then Some(s[|prefix|..]) else None
  }

  /** Reads lines labelled `from + 1`, `from + 2`, ... and returns the text after each label. */
  function ParseLines(lines: seq<string>, from: nat): Option<seq<string>>
    decreases |lines|
  {
    if lines == [] then Some([])
    else
      match StripPrefix(Label(from), lines[0])
      case None => None
      case Some(point) =>
        match ParseLines(lines[1..], from + 1)
        case None => None
        case Some(points) => Some([point] + points)
  }

  /** Inverse of `format_transcript`: the entries of a formatted transcript, or None. */
  function ParseTranscript(s: string): Option<seq<string>>
  {
    if s == "" then Some([]) else ParseLines(Split(s, '\n'), 0)
  }

  lemma {:induction false} ParseLinesOfTranscript(transcript: seq<string>, j: nat)
    requires j <= |transcript|
    ensures ParseLines(Lines(transcript)[j..], j) == Some(transcript[j..])
    decreases |transcript| - j
  {
    if j < |transcript| {
      ParseLinesOfTranscript(transcript, j + 1);
      var lines := Lines(transcript)[j..];
      assert lines[1..] == Lines(transcript)[j + 1..];
      assert lines[0] == Label(j) + transcript[j];
      assert (Label(j) + transcript[j])[|Label(j)|..] == transcript[j];
      assert StripPrefix(Label(j), lines[0]) == Some(transcript[j]);
      assert ParseLines(lines[1..], j + 1) == Some(transcript[j + 1..]);
      assert transcript[j..] == [transcript[j]] + transcript[j + 1..];
    } else {
      assert Lines(transcript)[j..] == [] == transcript[j..];
    }
  }

  /** Line `i` of a formatted transcript is `Point {i + 1}: ` followed by entry `i`, for every transcript. */
  lemma LabelledLines(transcript: seq<string>)
    ensures |Lines(transcript)| == |transcript|
    ensures forall i :: 0 <= i < |transcript| ==> Lines(transcript)[i] == "Point " + Decimal(i + 1) + ": " + transcript[i]
  {
  }

  /**
   * Split at newlines, a non-empty formatted transcript gives back exactly its labelled
   * lines, one per entry, when no entry holds a newline.
   */
  lemma FormatTranscriptLines(transcript: seq<string>)
    requires forall i :: 0 <= i < |transcript| ==> '\n' !in transcript[i]
    ensures transcript != [] ==> Split(FormatTranscript(transcript), '\n') == Lines(transcript)
  {
    var lines := Lines(transcript);
    forall i | 0 <= i < |lines|
      ensures '\n' !in lines[i]
    {
      var digits := Decimal(i + 1);
      assert '\n' !in digits;
      assert lines[i] == "Point " + digits + ": " + transcript[i];
    }
    if transcript != [] {
      SplitJoin(lines, '\n');
    }
  }

  /** Formatting a transcript and reading it back recovers every entry, in order. */
  lemma FormatTranscriptRoundTrip(transcript: seq<string>)
    requires forall i :: 0 <= i < |transcript| ==> '\n' !in transcript[i]
    ensures ParseTranscript(FormatTranscript(transcript)) == Some(transcript)
  {
    if transcript != [] {
      FormatTranscriptLines(transcript);
      ParseLinesOfTranscript(transcript, 0);
      assert Lines(transcript)[0..] == Lines(transcript);
      assert transcript[0..] == transcript;
    }
  }
}

=== FILE: two_clients.dfy ===
/**
 * two_clients.py: two agents debate for a given number of rounds; each round's state
 * is displayed, and `main` displays the refined inputs first and the transcripts last.
 */
module TwoClients {
  import opened Chat
  import opened Dialogue
  import Transcript

  /** The instruction texts this script sends, verbatim (including the "wordss" typo of agent 2). */
  const Texts := Script(
    "Refine this into a professional debate statement, limit to 15 words:",
    "You are a debator, limit to 15 words",
    "You are a debator, limit to 15 wordss",
    "Output Start with [Summarize], Summarize the debate from your argument in 15 words, did you lose?",
    "Output Start with [Summarize], Summarize the debate from your argument in 15 words, did you lose?")

  /**
   * `display_state` prints its four arguments and pauses; printing is not modelled, so a
   * display is the snapshot of those four texts. What each display of a run shows is
   * stated by `RoundDisplays` and `SessionDisplays`.
   */
  function DisplayState(s: Snapshot): Snapshot
  {
    s
  }

  /**
   * After round `k`, `display_state` shows agent 1's refined input beside agent 2's line
   * of that round, and agent 2's refined input beside agent 1's line.
   */
  lemma RoundDisplays(gen1: Generator, gen2: Generator, input1: string, input2: string, rounds: int, k: nat)
    requires k < Iterations(rounds)
    ensures
      var s := Simulate(Texts, DisplayState, gen1, gen2, input1, input2, rounds);
      s.log.rounds[k].display == Snapshot(s.transcript1[0], s.transcript2[k + 1], s.transcript2[0], s.transcript1[k + 1])
  {
    var s := Simulate(Texts, DisplayState, gen1, gen2, input1, input2, rounds);
    SimulationLengths(Texts, DisplayState, gen1, gen2, input1, input2, rounds);
    var rs := Rounds(gen1, gen2, Prompt(Texts.debater1, s.log.refine1.reply), Prompt(Texts.debater2, s.log.refine2.reply),
                     Iterations(rounds));
    assert s.log.rounds[k].display == DisplayState(Snapshot(s.transcript1[0], rs[k].turn2, s.transcript2[0], rs[k].turn1));
  }

  /**
   * `main`'s first display shows each raw input beside its refinement, and its last one
   * shows each refined input (not the summary) beside its formatted transcript.
   */
  lemma SessionDisplays(gen1: Generator, gen2: Generator, input1: string, input2: string, rounds: int)
    ensures
      var session := Debate(Texts, DisplayState, gen1, gen2, input1, input2, rounds);
      var s := Simulate(Texts, DisplayState, gen1, gen2, input1, input2, rounds);
      && session.opening == Snapshot(input1, gen1(Prompt(Texts.refine, input1)), input2, gen2(Prompt(Texts.refine, input2)))
      && session.closing == Snapshot(s.transcript1[0], Transcript.FormatTranscript(s.transcript1),
                                     s.transcript2[0], Transcript.FormatTranscript(s.transcript2))
  {
    SimulationLengths(Texts, DisplayState, gen1, gen2, input1, input2, rounds);
  }

  /**
   * The debate part of `simulate_dialogue`: seed both message lists and transcripts from
   * the refined inputs, then run the rounds, displaying the state after each one. The
   * results are the lists, transcripts and round records `Dialogue.Rounds` and `Dialogue.Logs`
   * define for `Iterations(rounds)` rounds.
   */
  method DebateRounds(gen1: Generator, gen2: Generator, refinedInput1: string, refinedInput2: string, rounds: int)
    returns (messages1: seq<Message>, messages2: seq<Message>, transcript1: seq<string>, transcript2: seq<string>,
             roundLogs: seq<RoundLog<Snapshot>>)
    ensures
      var seed1 := Prompt(Texts.debater1, refinedInput1);
      var seed2 := Prompt(Texts.debater2, refinedInput2);
      var rs := Rounds(gen1, gen2, seed1, seed2, Iterations(rounds));
      && messages1 == seed1 + Appended(rs, Agent1)
      && messages2 == seed2 + Appended(rs, Agent2)
      && transcript1 == [refinedInput1] + Turns(rs, Agent1)
      && transcript2 == [refinedInput2] + Turns(rs, Agent2)
      && roundLogs == Logs(RoundDisplay(DisplayState, refinedInput1, refinedInput2), seed1, seed2, rs)
  {
    messages1 := Prompt(Texts.debater1, refinedInput1);
    messages2 := Prompt(Texts.debater2, refinedInput2);
    ghost var seed1, seed2 := messages1, messages2;

    transcript1 := [refinedInput1];
    transcript2 := [refinedInput2];

    roundLogs := [];
    ghost var show := RoundDisplay(DisplayState, refinedInput1, refinedInput2);
    ghost var rs: seq<Round> := [];
    var i := 0;
    while i < rounds
      invariant 0 <= i <= Iterations(rounds)
      invariant rs == Rounds(gen1, gen2, seed1, seed2, i)
      invariant Progress(show, seed1, seed2, refinedInput1, refinedInput2, rs,
                         messages1, messages2, transcript1, transcript2, roundLogs)
    {
      ghost var before1, before2, lines1, lines2, logged := messages1, messages2, transcript1, transcript2, roundLogs;
      RoundsStep(gen1, gen2, seed1, seed2, i, messages1, messages2);
      var prompt1 := messages1;
      var newTurn1 := gen1(messages1);
      transcript1 := transcript1 + [newTurn1];
      messages1 := messages1 + [Message(Assistant, newTurn1)];
      messages2 := messages2 + [Message(User, newTurn1)];

      var prompt2 := messages2;
      var newTurn2 := gen2(messages2);
      transcript2 := transcript2 + [newTurn2];
      messages2 := messages2 + [Message(Assistant, newTurn2)];
      messages1 := messages1 + [Message(User, newTurn2)];

      var shown := DisplayState(Snapshot(refinedInput1, newTurn2, refinedInput2, newTurn1));
      roundLogs := roundLogs + [RoundLog(Request(prompt1, newTurn1), Request(prompt2, newTurn2), shown)];

      Advance(show, seed1, seed2, refinedInput1, refinedInput2, rs,
              before1, before2, lines1, lines2, logged, newTurn1, newTurn2);
      rs := rs + [Round(newTurn1, newTurn2)];
      i := i + 1;
    }
    assert rs == Rounds(gen1, gen2, seed1, seed2, Iterations(rounds));
  }

  /**
   * `simulate_dialogue`: refine both inputs, run the rounds, request the two summaries,
   * and return the refined inputs with the formatted transcripts. `log` records every
   * request and display in the order the script makes them.
   */
  method SimulateDialogue(gen1: Generator, gen2: Generator, userInput1: string, userInput2: string, rounds: int)
    returns (returned: (string, string, string, string), log: DialogueLog<Snapshot>)
    ensures returned == Simulate(Texts, DisplayState, gen1, gen2, userInput1, userInput2, rounds).returned
    ensures log == Simulate(Texts, DisplayState, gen1, gen2, userInput1, userInput2, rounds).log
  {
    var refinePrompt1 := Prompt(Texts.refine, userInput1);
    var refinedInput1 := gen1(refinePrompt1);
    var refinePrompt2 := Prompt(Texts.refine, userInput2);
    var refinedInput2 := gen2(refinePrompt2);

    var _, _, transcript1, transcript2, roundLogs := DebateRounds(gen1, gen2, refinedInput1, refinedInput2, rounds);

    var summaryPrompt1 := SummaryPrompt(Texts.summarize1, transcript1);
    var conclusion1 := gen1(summaryPrompt1);
    var summaryPrompt2 := SummaryPrompt(Texts.summarize2, transcript2);
    var conclusion2 := gen2(summaryPrompt2);

    log := DialogueLog(
      Request(refinePrompt1, refinedInput1), Request(refinePrompt2, refinedInput2),
      roundLogs,
      Request(summaryPrompt1, conclusion1), Request(summaryPrompt2, conclusion2));
    returned := (refinedInput1, Transcript.FormatTranscript(transcript1), refinedInput2, Transcript.FormatTranscript(transcript2));
  }

  /**
   * `main` after its three prompts: refine and display the inputs, run
   * `simulate_dialogue`, and display the tuple it returns.
   */
  method RunDebate(gen1: Generator, gen2: Generator, userInput1: string, userInput2: string, rounds: int)
    returns (session: Session<Snapshot>)
    ensures session == Debate(Texts, DisplayState, gen1, gen2, userInput1, userInput2, rounds)
  {
    var refinePrompt1 := Prompt(Texts.refine, userInput1);
    var refinedInput1 := gen1(refinePrompt1);
    var refinePrompt2 := Prompt(Texts.refine, userInput2);
    var refinedInput2 := gen2(refinePrompt2);
    var opening := DisplayState(Snapshot(userInput1, refinedInput1, userInput2, refinedInput2));

    var returned, log := SimulateDialogue(gen1, gen2, userInput1, userInput2, rounds);
    var closing := DisplayState(Snapshot(returned.0, returned.1, returned.2, returned.3));

    session := Session(Request(refinePrompt1, refinedInput1), Request(refinePrompt2, refinedInput2), opening, log, closing);
  }
}

=== FILE: two_clients_esp32.dfy ===
/**
 * two_clients_ESP32.py: the same debate as two_clients.py with its own instruction texts;
 * every display also sends its four texts, in order, to the ESP32 boards on the serial
 * ports, one text per port, at 9600 baud.
 */
module TwoClientsEsp32 {
  import opened Chat
  import opened Dialogue
  import Transcript

  /** The instruction texts this script sends, verbatim (agent 2's summary text ends in two spaces). */
  const Texts := Script(
    "Refine this into a professional debate statement, limit to 15 words. YOU MUST END YOUR RESPONSE WITH _",
    "You are a debator, limit to 15 words. YOU MUST END YOUR RESPONSE WITH _",
    "You are a debator, limit to 15 wordss. YOU MUST END YOUR RESPONSE WITH _",
    "Output Start with [Summarize], Summarize the debate from your argument in 15 words, did you lose?",
    "Output Start with [Summarize], Summarize the debate from your argument in 15 words. YOU MUST END YOUR RESPONSE WITH _  ")

  /** The default `baud_rate` of `display_state` and `display_state_to_esp32s`. */
  const DefaultBaudRate: nat := 9600

  /** The port list the script installs before calling `main`. */
  const Esp32Ports: seq<string> := ["/dev/ttyUSB0", "/dev/ttyUSB1", "/dev/ttyUSB2", "/dev/ttyUSB3"]

  /** One call of `send_string_to_esp32(port, baud_rate, text)`. */
  datatype Transmission = Transmission(port: string, baudRate: nat, text: string)

  /** What one `display_state` call does: the four texts it prints and the sends it makes. */
  datatype Relay = Relay(shown: Snapshot, sent: seq<Transmission>)

  function Min(a: nat, b: nat): nat
  {
    if a < b then a else b
  }

  /** Python's `zip(ports, data)`: pairs in order, stopping at the end of the shorter list. */
  function Zip(ports: seq<string>, data: seq<string>, baudRate: nat): (sent: seq<Transmission>)
    ensures |sent| == Min(|ports|, |data|)
    ensures forall i :: 0 <= i < |sent| ==> sent[i] == Transmission(ports[i], baudRate, data[i])
  {
    if ports == [] || data == [] then []
    else [Transmission(ports[0], baudRate, data[0])] + Zip(ports[1..], data[1..], baudRate)
  }

  /** The `data` list of `display_state`: agent 1 front and back, then agent 2 front and back. */
  function Fields(s: Snapshot): seq<string>
  {
    [s.front1, s.back1, s.front2, s.back2]
  }

  /** What `display_state` does with snapshot `s` when the global port list is `ports`. */
  function Relayed(ports: seq<string>, s: Snapshot, baudRate: nat): Relay
  {
    Relay(s, Zip(ports, Fields(s), baudRate))
  }

  /** `display_state` with its default baud rate, as a display for the shared debate. */
  function Display(ports: seq<string>): Snapshot -> Relay
  {
    (s: Snapshot) => Relayed(ports, s, DefaultBaudRate)
  }

  /**
   * `display_state_to_esp32s`: send each text to the port at the same position, in
   * order, as long as both lists last.
   */
  method DisplayStateToEsp32s(ports: seq<string>, data: seq<string>, baudRate: nat := DefaultBaudRate)
    returns (sent: seq<Transmission>)
    ensures sent == Zip(ports, data, baudRate)
  {
    sent := [];
    var i := 0;
    while i < |ports| && i < |data|
      invariant i <= |ports| && i <= |data|
      invariant |sent| == i
      invariant forall j :: 0 <= j < i ==> sent[j] == Transmission(ports[j], baudRate, data[j])
    {
      sent := sent + [Transmission(ports[i], baudRate, data[i])];
      i := i + 1;
    }
  }

  /** `display_state`: print the four texts and send them to the boards on `ports`. */
  method DisplayState(ports: seq<string>, front1: string, back1: string, front2: string, back2: string,
                      baudRate: nat := DefaultBaudRate)
    returns (relay: Relay)
    ensures relay == Relayed(ports, Snapshot(front1, back1, front2, back2), baudRate)
  {
    var data := [front1, back1, front2, back2];
    var sent := DisplayStateToEsp32s(ports, data, baudRate);
    relay := Relay(Snapshot(front1, back1, front2, back2), sent);
  }

  /**
   * With the script's four ports, board 0 gets agent 1's front text, board 1 agent 1's
   * back text, board 2 agent 2's front text and board 3 agent 2's back text.
   */
  lemma Esp32Routing(s: Snapshot)
    ensures Display(Esp32Ports)(s).sent == [
      Transmission("/dev/ttyUSB0", 9600, s.front1), Transmission("/dev/ttyUSB1", 9600, s.back1),
      Transmission("/dev/ttyUSB2", 9600, s.front2), Transmission("/dev/ttyUSB3", 9600, s.back2)]
  {
  }

  /**
   * A shorter port list leaves the last texts unsent and a longer one leaves the extra
   * ports untouched: exactly `min(|ports|, 4)` sends, in port order.
   */
  lemma PortCount(ports: seq<string>, s: Snapshot, baudRate: nat)
    ensures |Relayed(ports, s, baudRate).sent| == Min(|ports|, 4)
    ensures forall i :: 0 <= i < Min(|ports|, 4) ==> Relayed(ports, s, baudRate).sent[i].port == ports[i]
  {
  }

  /**
   * The display after round `k` sends each agent's refined statement to its front board
   * and the opponent's line of that round to its back board.
   */
  lemma RoundRouting(gen1: Generator, gen2: Generator, input1: string, input2: string, rounds: int, k: nat)
    requires k < Iterations(rounds)
    ensures
      var s := Simulate(Texts, Display(Esp32Ports), gen1, gen2, input1, input2, rounds);
      s.log.rounds[k].display.sent == [
        Transmission("/dev/ttyUSB0", 9600, s.transcript1[0]), Transmission("/dev/ttyUSB1", 9600, s.transcript2[k + 1]),
        Transmission("/dev/ttyUSB2", 9600, s.transcript2[0]), Transmission("/dev/ttyUSB3", 9600, s.transcript1[k + 1])]
  {
    var s := Simulate(Texts, Display(Esp32Ports), gen1, gen2, input1, input2, rounds);
    SimulationLengths(Texts, Display(Esp32Ports), gen1, gen2, input1, input2, rounds);
    var rs := Rounds(gen1, gen2, Prompt(Texts.debater1, s.log.refine1.reply), Prompt(Texts.debater2, s.log.refine2.reply),
                     Iterations(rounds));
    assert s.log.rounds[k].display == Display(Esp32Ports)(Snapshot(s.transcript1[0], rs[k].turn2, s.transcript2[0], rs[k].turn1));
    Esp32Routing(Snapshot(s.transcript1[0], rs[k].turn2, s.transcript2[0], rs[k].turn1));
  }

  /**
   * The debate part of `simulate_dialogue`, with each round's state relayed to the boards
   * on `ports`.
   */
  method DebateRounds(ports: seq<string>, gen1: Generator, gen2: Generator, refinedInput1: string, refinedInput2: string,
                      rounds: int)
    returns (messages1: seq<Message>, messages2: seq<Message>, transcript1: seq<string>, transcript2: seq<string>,
             roundLogs: seq<RoundLog<Relay>>)
    ensures
      var seed1 := Prompt(Texts.debater1, refinedInput1);
      var seed2 := Prompt(Texts.debater2, refinedInput2);
      var rs := Rounds(gen1, gen2, seed1, seed2, Iterations(rounds));
      && messages1 == seed1 + Appended(rs, Agent1)
      && messages2 == seed2 + Appended(rs, Agent2)
      && transcript1 == [refinedInput1] + Turns(rs, Agent1)
      && transcript2 == [refinedInput2] + Turns(rs, Agent2)
      && roundLogs == Logs(RoundDisplay(Display(ports), refinedInput1, refinedInput2), seed1, seed2, rs)
  {
    messages1 := Prompt(Texts.debater1, refinedInput1);
    messages2 := Prompt(Texts.debater2, refinedInput2);
    ghost var seed1, seed2 := messages1, messages2;

    transcript1 := [refinedInput1];
    transcript2 := [refinedInput2];

    roundLogs := [];
    ghost var show := RoundDisplay(Display(ports), refinedInput1, refinedInput2);
    ghost var rs: seq<Round> := [];
    var i := 0;
    while i < rounds
      invariant 0 <= i <= Iterations(rounds)
      invariant rs == Rounds(gen1, gen2, seed1, seed2, i)
      invariant Progress(show, seed1, seed2, refinedInput1, refinedInput2, rs,
                         messages1, messages2, transcript1, transcript2, roundLogs)
    {
      ghost var before1, before2, lines1, lines2, logged := messages1, messages2, transcript1, transcript2, roundLogs;
      RoundsStep(gen1, gen2, seed1, seed2, i, messages1, messages2);
      var prompt1 := messages1;
      var newTurn1 := gen1(messages1);
      transcript1 := transcript1 + [newTurn1];
      messages1 := messages1 + [Message(Assistant, newTurn1)];
      messages2 := messages2 + [Message(User, newTurn1)];

      var prompt2 := messages2;
      var newTurn2 := gen2(messages2);
      transcript2 := transcript2 + [newTurn2];
      messages2 := messages2 + [Message(Assistant, newTurn2)];
      messages1 := messages1 + [Message(User, newTurn2)];

      var shown := DisplayState(ports, refinedInput1, newTurn2, refinedInput2, newTurn1);
      roundLogs := roundLogs + [RoundLog(Request(prompt1, newTurn1), Request(prompt2, newTurn2), shown)];

      Advance(show, seed1, seed2, refinedInput1, refinedInput2, rs,
              before1, before2, lines1, lines2, logged, newTurn1, newTurn2);
      rs := rs + [Round(newTurn1, newTurn2)];
      i := i + 1;
    }
    assert rs == Rounds(gen1, gen2, seed1, seed2, Iterations(rounds));
  }

  /**
   * `simulate_dialogue` with the global port list `ports`: refine both inputs, run the
   * rounds, request the two summaries, and return the refined inputs with the formatted
   * transcripts.
   */
  method SimulateDialogue(ports: seq<string>, gen1: Generator, gen2: Generator, userInput1: string, userInput2: string,
                          rounds: int)
    returns (returned: (string, string, string, string), log: DialogueLog<Relay>)
    ensures returned == Simulate(Texts, Display(ports), gen1, gen2, userInput1, userInput2, rounds).returned
    ensures log == Simulate(Texts, Display(ports), gen1, gen2, userInput1, userInput2, rounds).log
  {
    var refinePrompt1 := Prompt(Texts.refine, userInput1);
    var refinedInput1 := gen1(refinePrompt1);
    var refinePrompt2 := Prompt(Texts.refine, userInput2);
    var refinedInput2 := gen2(refinePrompt2);

    var _, _, transcript1, transcript2, roundLogs := DebateRounds(ports, gen1, gen2, refinedInput1, refinedInput2, rounds);

    var summaryPrompt1 := SummaryPrompt(Texts.summarize1, transcript1);
    var conclusion1 := gen1(summaryPrompt1);
    var summaryPrompt2 := SummaryPrompt(Texts.summarize2, transcript2);
    var conclusion2 := gen2(summaryPrompt2);

    log := DialogueLog(
      Request(refinePrompt1, refinedInput1), Request(refinePrompt2, refinedInput2),
      roundLogs,
      Request(summaryPrompt1, conclusion1), Request(summaryPrompt2, conclusion2));
    returned := (refinedInput1, Transcript.FormatTranscript(transcript1), refinedInput2, Transcript.FormatTranscript(transcript2));
  }

  /**
   * `main` after its three prompts, with the global port list `ports`: refine and display
   * the inputs, run `simulate_dialogue`, and display the tuple it returns.
   */
  method RunDebate(ports: seq<string>, gen1: Generator, gen2: Generator, userInput1: string, userInput2: string,
                   rounds: int)
    returns (session: Session<Relay>)
    ensures session == Debate(Texts, Display(ports), gen1, gen2, userInput1, userInput2, rounds)
  {
    var refinePrompt1 := Prompt(Texts.refine, userInput1);
    var refinedInput1 := gen1(refinePrompt1);
    var refinePrompt2 := Prompt(Texts.refine, userInput2);
    var refinedInput2 := gen2(refinePrompt2);
    var opening := DisplayState(ports, userInput1, refinedInput1, userInput2, refinedInput2);

    var returned, log := SimulateDialogue(ports, gen1, gen2, userInput1, userInput2, rounds);
    var closing := DisplayState(ports, returned.0, returned.1, returned.2, returned.3);

    session := Session(Request(refinePrompt1, refinedInput1), Request(refinePrompt2, refinedInput2), opening, log, closing);
  }
}
